=== FILE: README.md ===
# Content-addressed revisioning, modelled in Dafny

The modelled program is `rev(inputdir, outputdir, options)` from `index.js`. It copies every file of an
input directory to an output directory under a name that carries a hash of the file's content.
Take `app.js`, which becomes `app.3f2a91c0.js`. Files that mention other files by name
are rewritten to mention the new names. So each file must be processed after the files it
mentions, and a file's hash covers the references it contains.

The model follows the program's stages:

- **Scanning** (module `Deps`, file `deps.dfy`).
  - `matchesPatterns` is `MatchesPatterns`. The glob matcher is a parameter.
  - `findPaths` is `FindPaths`: literal substring search of every listed filename in a file's content.
  - `findDeps` is `FindDeps`: a file matching the skip patterns is not read and depends on nothing.
  - `buildDepsMap` is `BuildDepsMap`: an insertion-ordered map from each listed file to its dependencies.
    `ScanAll` models the `Promise.all` over the scans.
- **Ordering** (modules `Deps` and `Graph`, files `deps.dfy` and `graph.dfy`).
  - The loop of `toposort` is the method `Partition`. It collects the edges `[file, dep]` and the "standalone" files, which have no dependencies.
  - The external topological sort followed by `.reverse()` is specified by its contract and implemented by `Graph.OrderDependenciesFirst`:
    - every dependency comes before its dependents;
    - a cycle is an error that names a file on the cycle, found by `Graph.FindCycle`.
  - `Toposort` concatenates the two parts.
- **Renaming** (modules `Paths` and `Revision`, files `paths.dfy` and `revision.dfy`).
  - `transformFilename` is `TransformFilename`.
  - The hex encoding of the digest is `Hex`.
  - The rename branch of `replace` is `NewFilename`.
  - `path.extname`, `path.basename`, `path.dirname` and `path.join` are `Extname`, `Stem`/`Basename`, `Dirname` and `Join` in module `Paths`.
- **Rewriting and the processing loop** (module `Revision`).
  - `replace` is the method `Replace`. It applies each replacement in turn to the previous output, hashes the result and picks the new name.
  - The sequential loop of `rev` is the method `ProcessInOrder`. Its loop invariant is `Processed`: every recorded new name (`refs`) is the one `replace` derives from the file's rewritten content, and every written file holds such content.
  - The replacement map `new Map(deps.map(dep => [dep, refs.get(dep)]))` is `Replacements`, built from `ReplacementPairs`.
  - The option defaults are `SkipRename` and `SkipFindDeps`.
  - `Rev` chains scanning, ordering and processing.

Supporting modules:

- `Strings` (`strings.dfy`):
  - substring search (`Contains`). It stands for `Buffer.prototype.includes` on the file's contents and works on characters, not on the bytes of their UTF-8 encoding.
  - literal replace-all (`ReplaceAll`).
  - `Distinct`: a sequence of names without repeats.
- `OrderedMaps` (`ordered_maps.dfy`): a JavaScript `Map` with its insertion order. `FromPairs` is both `new Map(pairs)` and the `reduce` of `map.set` calls.
- `Wrappers` (`wrappers.dfy`): `Option` and `Result`.

Errors are values:

- a file that cannot be read is `ReadFailure(path)`;
- a dependency cycle is `CyclicDependency(node)`.

Inputs:

- The input directory is a map from relative path to content.
- The directory listing is a parameter.
- The SHA-256 digest is a function parameter from content to bytes.
- The glob matcher is a function parameter.
- The written files are returned as a map from new name to content.

## Model

| member | source | states |
|---|---|---|
| Deps.MatchesPatterns | index.js:7-8 | the filename matches iff some pattern of the list matches it |
| Deps.FindPaths | index.js:13-14 | the result is a subsequence of the paths (their order kept); a path is in it iff it is listed and occurs in the content; each kept path occurs as often as it is listed |
| Deps.FindDeps | index.js:20-24 | a skipped file yields no dependencies whatever its content; otherwise reading fails exactly when the file is absent, and the dependencies are the listed names that occur in its content, as `FindPaths` orders them |
| Deps.ScanAllSpec | index.js:28 | all scans succeed iff each one does, and the results are the per-file scans in listing order; a failure is the failure of one of the files |
| Deps.BuildDepsMap | index.js:27-29 | success iff every listed file is skipped or readable; a failure names a listed unreadable, unskipped file; the map has exactly the listed files as keys, in listing order when the listing has no repeats, and `filenames[i]` maps to the i-th scan result |
| Deps.DependenciesAreListed | index.js:14 | every dependency in the built map is itself a key of the map |
| Deps.ReferenceClosure | index.js:20-29 | a skipped file maps to no dependencies; for any other listed file, a listed name is a dependency iff the file's content contains it |
| Deps.EdgesOf | index.js:37-39 | `(a, b)` is an edge iff `a` is a key and `b` one of its dependencies |
| Deps.StandaloneOf | index.js:37-42 | the standalone files are exactly the keys without dependencies, without repeats when the keys have none |
| Deps.StandaloneInKeyOrder | index.js:36-42 | the standalone files keep the map's key order |
| Deps.Partition | index.js:35-43 | the loop produces exactly the edges of the map and the standalone files in map order |
| Deps.StandaloneThenSorted | index.js:45 | standalone files followed by a dependencies-first, repeat-free order of the edge files is a processing order: all keys present, dependencies before every occurrence of their dependents, only standalone files repeated |
| Deps.Toposort | index.js:34-46 | succeeds iff the dependency graph is acyclic; on success the order starts with exactly the standalone files in map order, the rest holds exactly the files of the dependency edges, each once, it is a processing order and holds only keys and dependencies; on failure it names a file on a cycle (a self-reference included) |
| Graph.OrderDependenciesFirst | index.js:45 | the edge files without repeats, each dependency before its dependents, exactly when the edges are acyclic; otherwise a node on a cycle |
| Graph.FindCycle | index.js:45 | in a set of files where each has a dependency inside the set, walking dependencies finds a file on a cycle |
| Graph.OrderedIsAcyclic | index.js:45 | a graph with a dependencies-first order over all its nodes has no cycle |
| Graph.PathDescends | index.js:45 | along a dependency path, a dependencies-first order puts the end before the start |
| OrderedMaps.Set | index.js:29 | `map.set`: updates the value and appends the key only when it is new |
| OrderedMaps.SetEntries | index.js:29 | after `map.set`, `forEach` visits a new key last, after the earlier entries; setting an existing key changes only that key's entry |
| OrderedMaps.FromDistinctPairsEntries | index.js:60 | `forEach` over `new Map(pairs)` with no repeated key visits exactly the pairs, in their order |
| OrderedMaps.FromPairsKeys | index.js:84 | `new Map(pairs)` has exactly the first components as keys |
| OrderedMaps.FromPairsLastWins | index.js:84 | for a repeated key the last pair's value wins |
| OrderedMaps.FromDistinctPairs | index.js:29 | with distinct keys the map keeps the pairs' order and values |
| OrderedMaps.FromFunctionalPairs | index.js:29 | when equal keys carry equal values, every pair's value is the key's value |
| Strings.ContainsIff | index.js:14 | `includes` holds iff the pattern occurs at some position |
| Strings.ReplaceAbsent | index.js:61 | replacing a pattern that does not occur leaves the content unchanged |
| Strings.ReplaceByItself | index.js:61 | replacing a non-empty pattern by itself leaves the content unchanged |
| Paths.Extname | index.js:52 | the extension is a suffix of the base name, empty or a dot followed by neither dot nor slash; it is empty exactly when the base name is `..` or has no dot after its first character |
| Paths.StemAndExtension | index.js:52-53 | stem followed by extension is the base name, and a file with an extension has a non-empty stem |
| Paths.JoinKeepsDirectory | index.js:68 | joining a directory with a slash-free name keeps that directory and that base name |
| Paths.JoinSplit | index.js:68 | joining a path's directory and base name gives the path back, except that a leading `./` is dropped |
| Revision.Hex | index.js:48-49 | two lower-case hex digits per byte |
| Revision.HexRoundTrip | index.js:48-49 | the hex spelling of a digest loses nothing: decoding it gives the bytes back |
| Revision.TransformFilenameShape | index.js:51-54 | the new base name begins with the stem and a dot, carries the first 8 hash characters next, and ends with the original extension |
| Revision.TransformFilenameKeepsExtension | index.js:51-54 | for a slash-free name that has an extension and a hash fragment free of dots and slashes, the new name's extension is the old one, and its stem is the old stem, a dot and the hash fragment |
| Revision.TransformFilenameGainsExtension | index.js:51-54 | for a non-empty, slash-free name without an extension and a non-empty hash fragment free of dots and slashes, the new name's extension is a dot and that fragment, and its stem is the whole old name |
| Revision.NewFilenameProperties | index.js:65-68 | a skip-rename match keeps its name; any other file keeps its directory, gets the transformed base name, keeps its extension when it has one and never keeps its old name |
| Revision.NewFilenameGainsExtension | index.js:51-68 | a renamed file without an extension, with a non-empty base name and a non-empty digest, gains a dot and the first 8 hex characters of the hash as its extension |
| Revision.ReplacementsLookup | index.js:84 | the replacement map built from a file's dependencies has exactly those dependencies as keys; each maps to its recorded new name, or to the string `"undefined"` when `refs.get` finds none |
| Revision.SkipRename | index.js:75 | the given skip-rename patterns, or `['index.html']` when the option is absent |
| Revision.SkipFindDeps | index.js:76 | the given skip-scan patterns, or `['*.png', '*.jpg', '*.jpeg', '*.gif']` when the option is absent |
| Revision.NoDependenciesNoRewrite | index.js:58 | a file without dependencies is written unchanged |
| Revision.RewrittenStable | index.js:82-86 | once all of a file's dependencies have new names, later entries do not change what is written for it |
| Revision.Replace | index.js:56-71 | a read failure iff the file is absent; otherwise the content after every replacement in map order, unchanged when there are none, and the new name derived from that content |
| Revision.RecordRefs | index.js:86 | recording a file's new name keeps the earlier entries and keeps every entry equal to the name its rewritten content gives |
| Revision.RecordOutput | index.js:70 | writing the rewritten file under its new name keeps every written file tied to a file renamed to it |
| Revision.DependenciesRecorded | index.js:82-84 | in a processing order, every dependency of a file has its new name recorded when the file's turn comes |
| Revision.ProcessedStep | index.js:82-88 | processing the next file extends the recorded state by exactly that file |
| Revision.ProcessInOrder | index.js:82-89 | the loop fails iff some file of the order is unreadable, with a read failure naming the first unreadable file the sequential loop reaches (every file before it was read); otherwise it records exactly the files of the order, consistently, and returns their new names in order |
| Revision.OrderCoversListing | index.js:78-82 | a processing order of the scanned map visits exactly the listed files |
| Revision.Rev | index.js:74-91 | succeeds iff every listed file is readable and the dependencies are acyclic; when the scan fails, the result is exactly the scan's error; a read failure names a listed, unreadable file, and a read failure after a successful scan implies an acyclic graph (a cycle is reported before any file is processed); a cycle error names a file on a cycle; on success the order is a processing order made of the standalone files in map order and then the files of the dependency edges, each once; every listed file has a recorded new name, the returned names are those of the order, and the names and written files agree with the rewritten contents |

## Left out

- File system I/O (`sander.lsr`, `readFile`, `writeFile`): the listing and the contents are parameters, and the written files are the returned `output` map. Write failures are not modelled.
- Concurrency: `Promise.all` runs the scans concurrently, and which read failure rejects first depends on timing. `ScanAll` reports the first failing file in listing order; `ScanAllSpec` only states that the error belongs to some failing file.
- SHA-256 (`crypto.createHash`) is a function parameter. Only its hex spelling is modelled.
- Glob matching (`minimatch`) is a function parameter.
- Strings.ReplaceAll: `content.replace(new RegExp(s, 'g'), r)` is modelled as literal replace-all. Regular-expression metacharacters in filenames are taken literally, so a `.` in a filename does not match an arbitrary character here. A filename that is not a valid regular expression does not throw. `$` sequences in the replacement are inserted literally.
- The UTF-8 `Buffer` to string conversion is left out; contents are strings throughout. So `Contains` searches characters where `Buffer.prototype.includes` searches the bytes of the name's UTF-8 encoding.
- Revision.ProcessInOrder: a read failure inside the loop returns only the error. In the source, every file processed before the failing one has already been written to the output directory and stays there. The model does not return those partial writes.
- Revision.Rev: for the same reason, a read failure during processing reports no output, although the earlier files are already written. A listed file that matches the skip-scan patterns is not read while scanning, so this case is reachable.
- Paths: `path.dirname`, `basename` and `join` are modelled by splitting at the last `/`. Root paths, repeated or trailing slashes and `.`/`..` segments are not normalised.
- The internals of the npm `toposort` package are not part of this model. Its sorted order is specified by the contract the call site relies on, not by that package's exact output order. The cycle it reports is any node on a cycle.
- Revision.Rev: when two files receive the same new name, the later write replaces the earlier one. `OutputConsistent` says only that each written file holds the rewritten content of some file renamed to it, not which one.
- `promise-map-series` is modelled as the sequential loop of `ProcessInOrder`.

=== FILE: deps.dfy ===
/**
 * Dependency discovery and processing order: which files mention which other
 * files (`matchesPatterns`, `findPaths`, `findDeps`, `buildDepsMap`) and the
 * order in which files are revisioned (`toposort`).
 */
module Deps {
  import opened Wrappers
  import opened Strings
  import opened OrderedMaps
  import opened Graph

  /** A glob matcher, `minimatch(filename, pattern)`. */
  type Glob = (string, string) -> bool

  /** The input directory: each relative path that can be read, with its content. */
  type FileSystem = map<string, string>

  /** Filename to the filenames it mentions, in listing order. */
  type DepsMap = OrderedMap<seq<string>>

  datatype RevError =
    | ReadFailure(path: string)
    | CyclicDependency(node: string)

  /** `matchesPatterns`: the filename matches at least one of the patterns. */
  function MatchesPatterns(glob: Glob, patterns: seq<string>, filename: string): (b: bool)
    ensures b <==> exists i :: 0 <= i < |patterns| && glob(filename, patterns[i])
  {
    if patterns == [] then false
    else glob(filename, patterns[0]) || MatchesPatterns(glob, patterns[1..], filename)
  }

  /** `r` is `s` with some elements left out. */
  ghost predicate IsSubsequence(r: seq<string>, s: seq<string>)
  {
    r == [] || (s != [] && ((r[0] == s[0] && IsSubsequence(r[1..], s[1..])) || IsSubsequence(r, s[1..])))
  }

  /**
   * `findPaths(paths)(content)`: the paths that occur in the content, in the
   * order of `paths`, each as often as it is listed.
   */
  function FindPaths(paths: seq<string>, content: string): (r: seq<string>)
    ensures IsSubsequence(r, paths)
    ensures forall x :: x in r <==> x in paths && Contains(content, x)
    ensures forall x :: multiset(r)[x] == if Contains(content, x) then multiset(paths)[x] else 0
  {
    if paths == [] then []
    else
      var rest := FindPaths(paths[1..], content);
      assert paths == [paths[0]] + paths[1..];
      if Contains(content, paths[0]) then [paths[0]] + rest else rest
  }

  /**
   * `findDeps`: a file matching the skip patterns depends on nothing and is
   * not read; any other file is read and scanned for the listed filenames.
   */
  function FindDeps(glob: Glob, fs: FileSystem, filenames: seq<string>, skip: seq<string>, f: string)
    : (r: Result<seq<string>, RevError>)
    ensures MatchesPatterns(glob, skip, f) ==> r == Ok([])
    ensures r.Err? <==> !MatchesPatterns(glob, skip, f) && f !in fs
    ensures r.Err? ==> r.error == ReadFailure(f)
    ensures r.Ok? ==> forall x :: x in r.value <==> !MatchesPatterns(glob, skip, f) && x in filenames && Contains(fs[f], x)
    ensures r.Ok? && !MatchesPatterns(glob, skip, f) ==> r.value == FindPaths(filenames, fs[f])
  {
    if MatchesPatterns(glob, skip, f) then Ok([])
    else if f in fs then Ok(FindPaths(filenames, fs[f]))
    else Err(ReadFailure(f))
  }

  /**
   * The scans of all `names`, like `Promise.all`: the list of results when
   * every scan succeeds, otherwise the failure of the first name that fails.
   */
  function ScanAll(glob: Glob, fs: FileSystem, filenames: seq<string>, skip: seq<string>, names: seq<string>)
    : Result<seq<seq<string>>, RevError>
  {
    if names == [] then Ok([])
    else
      match FindDeps(glob, fs, filenames, skip, names[0])
      case Err(e) => Err(e)
      case Ok(d) =>
        match ScanAll(glob, fs, filenames, skip, names[1..])
        case Err(e) => Err(e)
        case Ok(ds) => Ok([d] + ds)
  }

  /**
   * All scans succeed iff each does, and then the results are the scans in
   * order; a failure is the failure of one of the names.
   */
  lemma {:induction false} ScanAllSpec(glob: Glob, fs: FileSystem, filenames: seq<string>, skip: seq<string>, names: seq<string>)
    ensures var r := ScanAll(glob, fs, filenames, skip, names);
      r.Ok? <==> forall i :: 0 <= i < |names| ==> FindDeps(glob, fs, filenames, skip, names[i]).Ok?
    ensures var r := ScanAll(glob, fs, filenames, skip, names);
      r.Ok? ==> (|r.value| == |names| &&
        forall i :: 0 <= i < |names| ==> r.value[i] == FindDeps(glob, fs, filenames, skip, names[i]).value)
    ensures var r := ScanAll(glob, fs, filenames, skip, names);
      r.Err? ==> exists i :: 0 <= i < |names| && FindDeps(glob, fs, filenames, skip, names[i]) == Err(r.error)
  {
    if names != [] {
      var tail := names[1..];
      ScanAllSpec(glob, fs, filenames, skip, tail);
      assert forall i :: 0 < i < |names| ==> tail[i - 1] == names[i];
      var first := FindDeps(glob, fs, filenames, skip, names[0]);
      var rest := ScanAll(glob, fs, filenames, skip, tail);
      if first.Err? {
        assert FindDeps(glob, fs, filenames, skip, names[0]) == Err(first.error);
      } else if rest.Err? {
        var j :| 0 <= j < |tail| && FindDeps(glob, fs, filenames, skip, tail[j]) == Err(rest.error);
        assert FindDeps(glob, fs, filenames, skip, names[j + 1]) == Err(rest.error);
      } else {
        assert ScanAll(glob, fs, filenames, skip, names) == Ok([first.value] + rest.value);
      }
    }
  }

  /** The filenames paired with their scan results. */
  function Zip(names: seq<string>, ds: seq<seq<string>>): (ps: seq<(string, seq<string>)>)
    requires |names| == |ds|
    ensures |ps| == |names| && forall i :: 0 <= i < |ps| ==> ps[i] == (names[i], ds[i])
  {
    seq(|names|, i requires 0 <= i < |names| => (names[i], ds[i]))
  }

  /**
   * `buildDepsMap`: scans every listed file and collects the results into a
   * map from filename to dependencies, in listing order.
   */
  function BuildDepsMap(glob: Glob, fs: FileSystem, filenames: seq<string>, skip: seq<string>)
    : (r: Result<DepsMap, RevError>)
    ensures r.Ok? <==> forall i :: 0 <= i < |filenames| ==> MatchesPatterns(glob, skip, filenames[i]) || filenames[i] in fs
    ensures r.Err? ==> exists i :: 0 <= i < |filenames| && r.error == ReadFailure(filenames[i])
    ensures r.Err? ==> !MatchesPatterns(glob, skip, r.error.path) && r.error.path !in fs
    ensures r.Ok? ==> r.value.Valid() && r.value.values.Keys == set f | f in filenames
    ensures r.Ok? && Distinct(filenames) ==> r.value.keys == filenames
    ensures r.Ok? ==> forall i :: 0 <= i < |filenames| ==>
              r.value.values[filenames[i]] == FindDeps(glob, fs, filenames, skip, filenames[i]).value
  {
    ScanAllSpec(glob, fs, filenames, skip, filenames);
    match ScanAll(glob, fs, filenames, skip, filenames)
    case Err(e) => Err(e)
    case Ok(ds) =>
      var ps := Zip(filenames, ds);
      assert Functional(ps);
      FromFunctionalPairs(ps);
      FromPairsKeys(ps);
      assert FirstComponents(ps) == filenames;
      assert Distinct(filenames) ==> FromPairs(ps).keys == filenames by {
        if Distinct(filenames) {
          FromDistinctPairs(ps);
        }
      }
      Ok(FromPairs(ps))
  }

  /** Every dependency recorded in the map is itself a key of the map. */
  lemma DependenciesAreListed(glob: Glob, fs: FileSystem, filenames: seq<string>, skip: seq<string>)
    requires BuildDepsMap(glob, fs, filenames, skip).Ok?
    ensures var m := BuildDepsMap(glob, fs, filenames, skip).value;
      forall f, d :: f in m.values && d in m.values[f] ==> d in m.values
  {
    var m := BuildDepsMap(glob, fs, filenames, skip).value;
    forall f, d | f in m.values && d in m.values[f] ensures d in m.values {
      var i :| 0 <= i < |filenames| && filenames[i] == f;
      assert d in FindDeps(glob, fs, filenames, skip, filenames[i]).value;
    }
  }

  /**
   * A scanned file whose content mentions a listed filename depends on it,
   * and a skipped file depends on nothing whatever its content.
   */
  lemma ReferenceClosure(glob: Glob, fs: FileSystem, filenames: seq<string>, skip: seq<string>, a: string, b: string)
    requires BuildDepsMap(glob, fs, filenames, skip).Ok?
    requires a in filenames && b in filenames
    ensures var m := BuildDepsMap(glob, fs, filenames, skip).value;
      && (MatchesPatterns(glob, skip, a) ==> m.values[a] == [])
      && (!MatchesPatterns(glob, skip, a) ==> (b in m.values[a] <==> Contains(fs[a], b)))
  {
    var i :| 0 <= i < |filenames| && filenames[i] == a;
  }

  // ---- toposort ----

  /** The edges `[filename, dep]` the loop of `toposort` pushes, key by key. */
  function EdgesOf(keys: seq<string>, values: map<string, seq<string>>): (es: seq<Edge>)
    requires forall k :: k in keys ==> k in values
    ensures forall a, b :: (a, b) in es <==> a in keys && b in values[a]
  {
    if keys == [] then []
    else
      var init, k := keys[..|keys| - 1], keys[|keys| - 1];
      var fan := seq(|values[k]|, j requires 0 <= j < |values[k]| => (k, values[k][j]));
      assert forall a, b :: (a, b) in fan <==> a == k && b in values[k] by {
        forall a, b | a == k && b in values[k] ensures (a, b) in fan {
          var j :| 0 <= j < |values[k]| && values[k][j] == b;
          assert fan[j] == (a, b);
        }
      }
      assert forall a :: a in keys <==> a in init || a == k by {
        assert keys == init + [k];
      }
      EdgesOf(init, values) + fan
  }

  /** The edges of a dependency map. */
  function DependencyEdges(m: DepsMap): (es: seq<Edge>)
    requires m.Valid()
    ensures forall a, b :: (a, b) in es <==> a in m.values && b in m.values[a]
  {
    EdgesOf(m.keys, m.values)
  }

  /** Appending the same element to both sides keeps a subsequence a subsequence. */
  lemma {:induction false} SubsequenceAppend(r: seq<string>, s: seq<string>, x: string)
    requires IsSubsequence(r, s)
    ensures IsSubsequence(r, s + [x]) && IsSubsequence(r + [x], s + [x])
    decreases |s|
  {
    if r == [] {
      assert IsSubsequence([x], [x]) by {
        assert IsSubsequence([x][1..], [x][1..]);
      }
      SubsequenceOfEmpty(s + [x]);
      SubsequenceSkipPrefix([x], [x], s);
      assert r + [x] == [x];
    } else {
      assert (s + [x])[1..] == s[1..] + [x];
      assert (r + [x])[1..] == r[1..] + [x];
      if r[0] == s[0] && IsSubsequence(r[1..], s[1..]) {
        SubsequenceAppend(r[1..], s[1..], x);
      } else {
        SubsequenceAppend(r, s[1..], x);
      }
    }
  }

  lemma SubsequenceOfEmpty(s: seq<string>)
    ensures IsSubsequence([], s)
  {
  }

  /** A subsequence of `t` is a subsequence of `p + t`. */
  lemma {:induction false} SubsequenceSkipPrefix(r: seq<string>, t: seq<string>, p: seq<string>)
    requires IsSubsequence(r, t)
    ensures IsSubsequence(r, p + t)
    decreases |p|
  {
    if p != [] {
      SubsequenceSkipPrefix(r, t, p[1..]);
      assert (p + t)[1..] == p[1..] + t;
    } else {
      assert p + t == t;
    }
  }

  /** The files of `keys` without dependencies, in order. */
  function StandaloneOf(keys: seq<string>, values: map<string, seq<string>>): (s: seq<string>)
    requires forall k :: k in keys ==> k in values
    ensures forall x :: x in s <==> x in keys && values[x] == []
    ensures Distinct(keys) ==> Distinct(s)
  {
    if keys == [] then []
    else
      var init, k := keys[..|keys| - 1], keys[|keys| - 1];
      var s := StandaloneOf(init, values);
      assert keys == init + [k];
      assert Distinct(keys) ==> k !in init;
      if values[k] == [] then s + [k] else s
  }

  /** The files without dependencies keep the order of the keys. */
  lemma {:induction false} StandaloneInKeyOrder(keys: seq<string>, values: map<string, seq<string>>)
    requires forall k :: k in keys ==> k in values
    ensures IsSubsequence(StandaloneOf(keys, values), keys)
  {
    if keys != [] {
      var init, k := keys[..|keys| - 1], keys[|keys| - 1];
      StandaloneInKeyOrder(init, values);
      SubsequenceAppend(StandaloneOf(init, values), init, k);
      assert keys == init + [k];
    }
  }

  /** The files of a dependency map that have no dependencies, in map order. */
  function Standalone(m: DepsMap): (s: seq<string>)
    requires m.Valid()
    ensures Distinct(s) && forall x :: x in s <==> x in m.values && m.values[x] == []
  {
    StandaloneOf(m.keys, m.values)
  }

  /**
   * An order in which the revisioning loop can process the files of `m`:
   * every key occurs, each dependency occurs before every occurrence of the
   * file that depends on it, and only files without dependencies occur twice.
   */
  ghost predicate IsProcessingOrder(m: DepsMap, order: seq<string>)
    requires m.Valid()
  {
    && (forall k :: k in m.values ==> k in order)
    && DepsFirst(DependencyEdges(m), order)
    && (forall i, j :: 0 <= i < j < |order| && order[i] == order[j] ==> order[i] in m.values && m.values[order[i]] == [])
  }

  /** Every key occurs among the standalone files or the nodes of the edges. */
  lemma KeysCovered(m: DepsMap, sorted: seq<string>)
    requires m.Valid()
    requires forall x :: x in sorted <==> IsNode(DependencyEdges(m), x)
    ensures forall k :: k in m.values ==> k in Standalone(m) + sorted
  {
    var es := DependencyEdges(m);
    forall k | k in m.values ensures k in Standalone(m) + sorted {
      if m.values[k] != [] {
        assert (k, m.values[k][0]) in es;
        var n :| 0 <= n < |es| && es[n] == (k, m.values[k][0]);
        assert IsNode(es, k);
      }
    }
  }

  /** Standalone files have no edges, so putting them first keeps dependencies first. */
  lemma StandaloneFirstKeepsOrder(m: DepsMap, sorted: seq<string>)
    requires m.Valid()
    requires DepsFirst(DependencyEdges(m), sorted)
    ensures DepsFirst(DependencyEdges(m), Standalone(m) + sorted)
  {
    var es, s := DependencyEdges(m), Standalone(m);
    var order := s + sorted;
    forall i, n | 0 <= i < |order| && 0 <= n < |es| && es[n].0 == order[i]
      ensures es[n].1 in order[..i]
    {
      assert es[n] in es;
      if i >= |s| {
        assert order[i] == sorted[i - |s|];
        assert es[n].1 in sorted[..i - |s|];
        assert order[..i] == s + sorted[..i - |s|];
      }
    }
  }

  /** Only standalone files can occur twice. */
  lemma StandaloneRepeatOnly(m: DepsMap, sorted: seq<string>)
    requires m.Valid() && Distinct(sorted)
    ensures var order := Standalone(m) + sorted;
      forall i, j :: 0 <= i < j < |order| && order[i] == order[j] ==> order[i] in m.values && m.values[order[i]] == []
  {
    var s := Standalone(m);
    var order := s + sorted;
    assert forall i :: 0 <= i < |s| ==> order[i] == s[i];
    assert forall i :: |s| <= i < |order| ==> order[i] == sorted[i - |s|];
  }

  /** Standalone files followed by a dependencies-first order of the edge files is a processing order. */
  lemma StandaloneThenSorted(m: DepsMap, sorted: seq<string>)
    requires m.Valid()
    requires Distinct(sorted) && DepsFirst(DependencyEdges(m), sorted)
    requires forall x :: x in sorted <==> IsNode(DependencyEdges(m), x)
    ensures IsProcessingOrder(m, Standalone(m) + sorted)
  {
    KeysCovered(m, sorted);
    StandaloneFirstKeepsOrder(m, sorted);
    StandaloneRepeatOnly(m, sorted);
  }

  /**
   * The loop of `toposort`: walks the map in order, pushing `[filename, dep]`
   * for every dependency of a file that has some, and collecting the files
   * that have none.
   */
  method Partition(m: DepsMap) returns (graph: seq<Edge>, standalone: seq<string>)
    requires m.Valid()
    ensures graph == DependencyEdges(m) && standalone == Standalone(m)
  {
    graph, standalone := [], [];
    for i := 0 to |m.keys|
      invariant graph == EdgesOf(m.keys[..i], m.values)
      invariant standalone == StandaloneOf(m.keys[..i], m.values)
    {
      var filename := m.keys[i];
      var deps := m.values[filename];
      assert m.keys[..i + 1] == m.keys[..i] + [filename];
      if |deps| > 0 {
        ghost var before := graph;
        for j := 0 to |deps|
          invariant graph == before + seq(j, n requires 0 <= n < j => (filename, deps[n]))
        {
          graph := graph + [(filename, deps[j])];
        }
      } else {
        standalone := standalone + [filename];
      }
    }
    assert m.keys[..|m.keys|] == m.keys;
  }

  /**
   * `toposort`: the files without dependencies in map order, followed by the
   * files of the dependency edges sorted so that dependencies come first; a
   * dependency cycle is an error naming a file on the cycle.
   */
  method Toposort(m: DepsMap) returns (r: Result<seq<string>, RevError>)
    requires m.Valid()
    ensures r.Ok? <==> Acyclic(DependencyEdges(m))
    ensures r.Err? ==> r.error.CyclicDependency? && OnCycle(DependencyEdges(m), r.error.node)
    ensures r.Ok? ==> Standalone(m) <= r.value && Distinct(r.value[|Standalone(m)|..])
    ensures r.Ok? ==> forall x :: x in r.value[|Standalone(m)|..] <==> IsNode(DependencyEdges(m), x)
    ensures r.Ok? ==> IsProcessingOrder(m, r.value)
    ensures r.Ok? ==> forall x :: x in r.value ==> x in m.values || exists k :: k in m.values && x in m.values[k]
  {
    var graph, standalone := Partition(m);
    var sorted := OrderDependenciesFirst(graph);
    match sorted {
      case Err(x) =>
        r := Err(CyclicDependency(x));
      case Ok(s) =>
        StandaloneThenSorted(m, s);
        NodesAreMapped(m, s);
        assert (standalone + s)[|standalone|..] == s;
        r := Ok(standalone + s);
    }
  }

  /** The nodes of the dependency edges are keys or dependencies of keys. */
  lemma NodesAreMapped(m: DepsMap, sorted: seq<string>)
    requires m.Valid()
    requires forall x :: x in sorted <==> IsNode(DependencyEdges(m), x)
    ensures forall x :: x in Standalone(m) + sorted ==> x in m.values || exists k :: k in m.values && x in m.values[k]
  {
    var es := DependencyEdges(m);
    forall x | x in Standalone(m) + sorted
      ensures x in m.values || exists k :: k in m.values && x in m.values[k]
    {
      if x !in Standalone(m) {
        var n :| 0 <= n < |es| && (es[n].0 == x || es[n].1 == x);
        assert es[n] in es;
      }
    }
  }
}

=== FILE: graph.dfy ===
/**
 * Dependency graphs given as lists of edges `(file, dep)`, meaning that `file`
 * refers to `dep`, and a topological sort that puts every dependency before
 * the files that depend on it or reports a file on a dependency cycle. The
 * sort stands for `toposort(edges).reverse()` of the npm `toposort` package,
 * specified by the contract its caller relies on.
 */
module Graph {
  import opened Wrappers
  import opened Strings

  /** `(file, dep)`: `file` mentions `dep`. */
  type Edge = (string, string)

  /** `x` is the source or the target of some edge. */
  ghost predicate IsNode(edges: seq<Edge>, x: string)
  {
    exists k :: 0 <= k < |edges| && (edges[k].0 == x || edges[k].1 == x)
  }

  /** Consecutive elements of `p` are joined by edges. */
  ghost predicate IsPath(edges: seq<Edge>, p: seq<string>)
  {
    forall k :: 0 <= k < |p| - 1 ==> (p[k], p[k + 1]) in edges
  }

  /** Following edges from `x` leads back to `x`. */
  ghost predicate OnCycle(edges: seq<Edge>, x: string)
  {
    exists p :: |p| >= 2 && p[0] == x && p[|p| - 1] == x && IsPath(edges, p)
  }

  ghost predicate Acyclic(edges: seq<Edge>)
  {
    forall x :: !OnCycle(edges, x)
  }

  /** Wherever a file occurs in `order`, all its dependencies occur before that place. */
  ghost predicate DepsFirst(edges: seq<Edge>, order: seq<string>)
  {
    forall i, k :: 0 <= i < |order| && 0 <= k < |edges| && edges[k].0 == order[i] ==> edges[k].1 in order[..i]
  }

  /** Index of the first occurrence of `x` in `s`, or -1. */
  function IndexOf(s: seq<string>, x: string): (k: int)
    ensures -1 <= k < |s|
    ensures k >= 0 ==> s[k] == x && x !in s[..k]
    ensures k < 0 ==> x !in s
  {
    if s == [] then -1
    else if s[0] == x then 0
    else
      var k := IndexOf(s[1..], x);
      if k < 0 then -1 else k + 1
  }

  /** The nodes of the edges, each once, in order of first appearance. */
  function UniqueNodes(edges: seq<Edge>): (ns: seq<string>)
    ensures Distinct(ns)
    ensures forall x :: x in ns <==> IsNode(edges, x)
  {
    if edges == [] then []
    else
      var init, e := edges[..|edges| - 1], edges[|edges| - 1];
      var ns := UniqueNodes(init);
      var ns1 := if e.0 in ns then ns else ns + [e.0];
      var ns2 := if e.1 in ns1 then ns1 else ns1 + [e.1];
      NodesOfLastEdge(edges);
      assert Distinct(ns1) by {
        if e.0 !in ns {
          DistinctAppend(ns, e.0);
        }
      }
      assert Distinct(ns2) by {
        if e.1 !in ns1 {
          DistinctAppend(ns1, e.1);
        }
      }
      ns2
  }

  /** The nodes of a non-empty edge list are those of all but its last edge and the two ends of the last. */
  lemma NodesOfLastEdge(edges: seq<Edge>)
    requires edges != []
    ensures var init, e := edges[..|edges| - 1], edges[|edges| - 1];
      forall x :: IsNode(edges, x) <==> IsNode(init, x) || x == e.0 || x == e.1
  {
    var init, e := edges[..|edges| - 1], edges[|edges| - 1];
    forall x | IsNode(edges, x) ensures IsNode(init, x) || x == e.0 || x == e.1 {
      var k :| 0 <= k < |edges| && (edges[k].0 == x || edges[k].1 == x);
      if k < |init| {
        assert init[k] == edges[k];
      }
    }
    forall x | IsNode(init, x) ensures IsNode(edges, x) {
      var k :| 0 <= k < |init| && (init[k].0 == x || init[k].1 == x);
      assert edges[k] == init[k];
    }
  }

  /** Every edge leaving `x` ends in `done`: `x` can be emitted now. */
  predicate Ready(edges: seq<Edge>, done: set<string>, x: string)
  {
    forall k :: 0 <= k < |edges| && edges[k].0 == x ==> edges[k].1 in done
  }

  /** Position of the first element of `rest` that is ready, or -1. */
  function FindReady(edges: seq<Edge>, done: set<string>, rest: seq<string>): (k: int)
    ensures -1 <= k < |rest|
    ensures k >= 0 ==> Ready(edges, done, rest[k])
    ensures k < 0 ==> forall i :: 0 <= i < |rest| ==> !Ready(edges, done, rest[i])
  {
    if rest == [] then -1
    else if Ready(edges, done, rest[0]) then 0
    else
      var k := FindReady(edges, done, rest[1..]);
      if k < 0 then -1 else k + 1
  }

  /** Some edge leads from `x` into `within`. */
  ghost predicate HasSuccessorIn(edges: seq<Edge>, x: string, within: set<string>)
  {
    exists k :: 0 <= k < |edges| && edges[k].0 == x && edges[k].1 in within
  }

  /** The target of the first edge that leads from `x` into `within`. */
  function Successor(edges: seq<Edge>, x: string, within: set<string>): (y: string)
    requires HasSuccessorIn(edges, x, within)
    ensures (x, y) in edges && y in within
  {
    if edges[0].0 == x && edges[0].1 in within then edges[0].1
    else
      assert HasSuccessorIn(edges[1..], x, within) by {
        var k :| 0 <= k < |edges| && edges[k].0 == x && edges[k].1 in within;
        assert k > 0 && edges[1..][k - 1] == edges[k];
      }
      Successor(edges[1..], x, within)
  }

  /** A sequence without repetitions drawn from a set is no longer than the set. */
  lemma {:induction false} DistinctBound(s: seq<string>, within: set<string>)
    requires Distinct(s) && forall i :: 0 <= i < |s| ==> s[i] in within
    ensures |s| <= |within|
  {
    if s != [] {
      DistinctBound(s[1..], within - {s[0]});
    }
  }

  lemma DistinctAppend(s: seq<string>, x: string)
    requires Distinct(s) && x !in s
    ensures Distinct(s + [x])
  {
  }

  lemma PathAppend(edges: seq<Edge>, p: seq<string>, y: string)
    requires |p| >= 1 && IsPath(edges, p) && (p[|p| - 1], y) in edges
    ensures IsPath(edges, p + [y])
  {
  }

  /** A walk that steps back onto one of its own nodes has closed a cycle through that node. */
  lemma {:induction false} WalkClosesCycle(edges: seq<Edge>, walk: seq<string>, next: string)
    requires |walk| >= 1 && IsPath(edges, walk) && (walk[|walk| - 1], next) in edges
    requires next in walk
    ensures OnCycle(edges, next)
  {
    var k := IndexOf(walk, next);
    var p := walk[k..] + [next];
    assert IsPath(edges, p) by {
      forall j | 0 <= j < |p| - 1 ensures (p[j], p[j + 1]) in edges {
        if j < |p| - 2 {
          assert p[j] == walk[k + j] && p[j + 1] == walk[k + j + 1];
        }
      }
    }
    assert p[0] == next && p[|p| - 1] == next;
  }

  /**
   * In a set of nodes that each have an edge into the set, walks along those
   * edges from `start` until a node repeats; the repeated node lies on a cycle.
   */
  method FindCycle(edges: seq<Edge>, within: set<string>, start: string) returns (x: string)
    requires start in within
    requires forall y :: y in within ==> HasSuccessorIn(edges, y, within)
    ensures x in within && OnCycle(edges, x)
  {
    var walk := [start];
    var next := Successor(edges, start, within);
    while next !in walk
      invariant Walk(edges, within, walk)
      invariant (walk[|walk| - 1], next) in edges && next in within
      decreases |within| - |walk|
    {
      WalkStep(edges, within, walk, next);
      walk := walk + [next];
      next := Successor(edges, next, within);
    }
    WalkClosesCycle(edges, walk, next);
    x := next;
  }

  /** A non-empty path inside `within` that visits no node twice. */
  ghost predicate Walk(edges: seq<Edge>, within: set<string>, walk: seq<string>)
  {
    && |walk| >= 1 && Distinct(walk) && IsPath(edges, walk)
    && (forall i :: 0 <= i < |walk| ==> walk[i] in within)
  }

  /** A walk extended by an edge to a new node inside `within` is a walk, no longer than `within` is large. */
  lemma WalkStep(edges: seq<Edge>, within: set<string>, walk: seq<string>, next: string)
    requires Walk(edges, within, walk)
    requires (walk[|walk| - 1], next) in edges && next in within && next !in walk
    ensures Walk(edges, within, walk + [next]) && |walk| + 1 <= |within|
  {
    DistinctAppend(walk, next);
    PathAppend(edges, walk, next);
    DistinctBound(walk + [next], within);
  }

  /** Along a path, positions in a dependencies-first order strictly decrease. */
  lemma {:induction false} PathDescends(edges: seq<Edge>, order: seq<string>, p: seq<string>)
    requires DepsFirst(edges, order)
    requires |p| >= 2 && IsPath(edges, p) && p[0] in order
    ensures p[|p| - 1] in order && IndexOf(order, p[|p| - 1]) < IndexOf(order, p[0])
    decreases |p|
  {
    var i := IndexOf(order, p[0]);
    assert (p[0], p[1]) in edges;
    var k :| 0 <= k < |edges| && edges[k] == (p[0], p[1]);
    assert p[1] in order[..i];
    assert IndexOf(order, p[1]) < i;
    if |p| > 2 {
      assert IsPath(edges, p[1..]) by {
        forall j | 0 <= j < |p[1..]| - 1 ensures (p[1..][j], p[1..][j + 1]) in edges {
          assert p[1..][j] == p[j + 1] && p[1..][j + 1] == p[j + 2];
        }
      }
      PathDescends(edges, order, p[1..]);
    }
  }

  /** An order that lists every node with its dependencies first rules out cycles. */
  lemma OrderedIsAcyclic(edges: seq<Edge>, order: seq<string>)
    requires DepsFirst(edges, order)
    requires forall x :: IsNode(edges, x) ==> x in order
    ensures Acyclic(edges)
  {
    forall x | OnCycle(edges, x) ensures false {
      var p :| |p| >= 2 && p[0] == x && p[|p| - 1] == x && IsPath(edges, p);
      assert (p[0], p[1]) in edges;
      var k :| 0 <= k < |edges| && edges[k] == (p[0], p[1]);
      assert IsNode(edges, x);
      PathDescends(edges, order, p);
    }
  }

  /** Emitting a ready node keeps every dependency before its dependents. */
  lemma DepsFirstAppend(edges: seq<Edge>, order: seq<string>, x: string)
    requires DepsFirst(edges, order) && Ready(edges, (set y | y in order), x)
    ensures DepsFirst(edges, order + [x])
  {
    forall i, j | 0 <= i < |order + [x]| && 0 <= j < |edges| && edges[j].0 == (order + [x])[i]
      ensures edges[j].1 in (order + [x])[..i]
    {
      if i < |order| {
        assert (order + [x])[..i] == order[..i];
      } else {
        assert (order + [x])[..i] == order;
      }
    }
  }

  /** Moving the `k`-th remaining node to the output keeps both lists free of repetitions and apart. */
  lemma MoveNode(order: seq<string>, rest: seq<string>, k: int, order': seq<string>, rest': seq<string>)
    requires Distinct(order) && Distinct(rest) && 0 <= k < |rest|
    requires forall i, j :: 0 <= i < |order| && 0 <= j < |rest| ==> order[i] != rest[j]
    requires order' == order + [rest[k]] && rest' == rest[..k] + rest[k + 1..]
    ensures Distinct(order') && Distinct(rest')
    ensures forall i, j :: 0 <= i < |order'| && 0 <= j < |rest'| ==> order'[i] != rest'[j]
    ensures forall y :: y in order' || y in rest' <==> y in order || y in rest
  {
    assert forall j :: 0 <= j < |rest'| ==> rest'[j] == if j < k then rest[j] else rest[j + 1];
    assert rest == rest[..k] + [rest[k]] + rest[k + 1..];
  }

  /**
   * When no remaining node is ready, every remaining node has an edge to a
   * remaining node, because every node is either emitted or remaining.
   */
  lemma StuckNodesHaveSuccessors(edges: seq<Edge>, order: seq<string>, rest: seq<string>, within: set<string>)
    requires forall x :: x in order || x in rest <==> IsNode(edges, x)
    requires forall i :: 0 <= i < |rest| ==> !Ready(edges, (set y | y in order), rest[i])
    requires within == set x | x in rest
    ensures forall y :: y in within ==> HasSuccessorIn(edges, y, within)
  {
    forall y | y in within ensures HasSuccessorIn(edges, y, within) {
      var i :| 0 <= i < |rest| && rest[i] == y;
      assert !Ready(edges, (set y | y in order), rest[i]);
      var j :| 0 <= j < |edges| && edges[j].0 == y && edges[j].1 !in order;
      assert IsNode(edges, edges[j].1);
    }
  }

  /**
   * The state of the sort: `order` is emitted, `rest` is still to come, the two
   * hold every node once between them, `done` is the set of emitted nodes and
   * every emitted node follows its dependencies.
   */
  ghost predicate Sorting(edges: seq<Edge>, order: seq<string>, rest: seq<string>, done: set<string>)
  {
    && Distinct(order) && Distinct(rest)
    && (forall i, j :: 0 <= i < |order| && 0 <= j < |rest| ==> order[i] != rest[j])
    && done == (set x | x in order)
    && (forall x :: x in order || x in rest <==> IsNode(edges, x))
    && DepsFirst(edges, order)
  }

  /** Emitting a ready node keeps the sort's state. */
  lemma SortingStep(edges: seq<Edge>, order: seq<string>, rest: seq<string>, done: set<string>, k: int)
    requires Sorting(edges, order, rest, done) && 0 <= k < |rest| && Ready(edges, done, rest[k])
    ensures Sorting(edges, order + [rest[k]], rest[..k] + rest[k + 1..], done + {rest[k]})
  {
    DepsFirstAppend(edges, order, rest[k]);
    MoveNode(order, rest, k, order + [rest[k]], rest[..k] + rest[k + 1..]);
  }

  /**
   * Topological sort: lists every node once, each after all of its
   * dependencies, or fails with a node on a dependency cycle. Repeatedly
   * emits the first remaining node whose dependencies have all been emitted.
   */
  method OrderDependenciesFirst(edges: seq<Edge>) returns (r: Result<seq<string>, string>)
    ensures r.Ok? ==> Distinct(r.value) && DepsFirst(edges, r.value)
    ensures r.Ok? ==> forall x :: x in r.value <==> IsNode(edges, x)
    ensures r.Err? ==> IsNode(edges, r.error) && OnCycle(edges, r.error)
    ensures r.Ok? <==> Acyclic(edges)
  {
    var order: seq<string> := [];
    var done: set<string> := {};
    var rest := UniqueNodes(edges);
    while rest != []
      invariant Sorting(edges, order, rest, done)
      decreases |rest|
    {
      var k := FindReady(edges, done, rest);
      if k < 0 {
        var within := set y | y in rest;
        StuckNodesHaveSuccessors(edges, order, rest, within);
        var x := FindCycle(edges, within, rest[0]);
        r := Err(x);
        return;
      }
      SortingStep(edges, order, rest, done, k);
      order, done, rest := order + [rest[k]], done + {rest[k]}, rest[..k] + rest[k + 1..];
    }
    OrderedIsAcyclic(edges, order);
    r := Ok(order);
  }
}

=== FILE: ordered_maps.dfy ===
/**
 * JavaScript `Map` values: a finite map that remembers the order in which its
 * keys were first inserted, which is the order `forEach` and `entries` visit.
 */
module OrderedMaps {
  import opened Strings

  datatype OrderedMap<V> = OrderedMap(keys: seq<string>, values: map<string, V>)
  {
    /** Every key is listed once, and the listed keys are the keys of the map. */
    ghost predicate Valid()
    {
      && Distinct(keys)
      && values.Keys == set k | k in keys
    }

    /** `map.size` */
    function Size(): nat
    {
      |keys|
    }

    /** The entries in insertion order, as `forEach` visits them. */
    function Entries(): (es: seq<(string, V)>)
      requires Valid()
      ensures |es| == |keys|
      ensures forall i :: 0 <= i < |es| ==> es[i].0 == keys[i] && es[i].1 == values[keys[i]]
    {
      seq(|keys|, i requires 0 <= i < |keys| => (keys[i], values[keys[i]]))
    }
  }

  function Empty<V>(): (m: OrderedMap<V>)
    ensures m.Valid() && m.Size() == 0
  {
    OrderedMap([], map[])
  }

  /**
   * `map.set(k, v)`: a new key goes to the end of the insertion order; a key
   * already present keeps its place and gets the new value.
   */
  function Set<V>(m: OrderedMap<V>, k: string, v: V): (r: OrderedMap<V>)
    requires m.Valid()
    ensures r.Valid()
    ensures r.values == m.values[k := v]
    ensures k in m.values ==> r.keys == m.keys
    ensures k !in m.values ==> r.keys == m.keys + [k]
  {
    if k in m.values then OrderedMap(m.keys, m.values[k := v])
    else OrderedMap(m.keys + [k], m.values[k := v])
  }

  /** `new Map(pairs)`, and equally a `reduce` that calls `set` once per pair, left to right. */
  function FromPairs<V>(ps: seq<(string, V)>): (m: OrderedMap<V>)
    ensures m.Valid()
  {
    if ps == [] then Empty() else Set(FromPairs(ps[..|ps| - 1]), ps[|ps| - 1].0, ps[|ps| - 1].1)
  }

  /** The keys of the pairs, in order. */
  function FirstComponents<V>(ps: seq<(string, V)>): (ks: seq<string>)
    ensures |ks| == |ps| && forall i :: 0 <= i < |ps| ==> ks[i] == ps[i].0
  {
    seq(|ps|, i requires 0 <= i < |ps| => ps[i].0)
  }

  /** No later pair has the same key as pair `i`. */
  ghost predicate LastOfItsKey<V>(ps: seq<(string, V)>, i: int)
    requires 0 <= i < |ps|
  {
    forall j :: i < j < |ps| ==> ps[j].0 != ps[i].0
  }

  /** The map built from pairs has exactly the keys of the pairs. */
  lemma {:induction false} FromPairsKeys<V>(ps: seq<(string, V)>)
    ensures FromPairs(ps).values.Keys == set k | k in FirstComponents(ps)
  {
    if ps != [] {
      var init, last := ps[..|ps| - 1], ps[|ps| - 1];
      FromPairsKeys(init);
      assert FirstComponents(ps) == FirstComponents(init) + [last.0];
      assert FromPairs(ps) == Set(FromPairs(init), last.0, last.1);
    }
  }

  /** Each key of the map built from pairs holds the value of its last pair. */
  lemma {:induction false} FromPairsLastWins<V>(ps: seq<(string, V)>, i: int)
    requires 0 <= i < |ps| && LastOfItsKey(ps, i)
    ensures ps[i].0 in FromPairs(ps).values && FromPairs(ps).values[ps[i].0] == ps[i].1
  {
    var init, last := ps[..|ps| - 1], ps[|ps| - 1];
    assert FromPairs(ps) == Set(FromPairs(init), last.0, last.1);
    if i < |init| {
      assert init[i] == ps[i];
      assert last.0 != ps[i].0;
      assert LastOfItsKey(init, i) by {
        forall j | i < j < |init| ensures init[j].0 != init[i].0 {
          assert init[j] == ps[j];
        }
      }
      FromPairsLastWins(init, i);
    }
  }

  /** When no key repeats, the insertion order is the order of the pairs. */
  lemma {:induction false} FromDistinctPairs<V>(ps: seq<(string, V)>)
    requires forall i, j :: 0 <= i < j < |ps| ==> ps[i].0 != ps[j].0
    ensures FromPairs(ps).keys == FirstComponents(ps)
    ensures forall i :: 0 <= i < |ps| ==> ps[i].0 in FromPairs(ps).values && FromPairs(ps).values[ps[i].0] == ps[i].1
  {
    forall i | 0 <= i < |ps| ensures ps[i].0 in FromPairs(ps).values && FromPairs(ps).values[ps[i].0] == ps[i].1 {
      FromPairsLastWins(ps, i);
    }
    if ps != [] {
      var init, last := ps[..|ps| - 1], ps[|ps| - 1];
      FromDistinctPairs(init);
      FromPairsKeys(init);
      assert FromPairs(ps) == Set(FromPairs(init), last.0, last.1);
      assert last.0 !in FromPairs(init).values;
      assert FirstComponents(ps) == FirstComponents(init) + [last.0];
    }
  }

  /**
   * `forEach` after `set`: a new key is visited last, after the entries that
   * were there before; setting a key already present changes only its entry.
   */
  lemma SetEntries<V>(m: OrderedMap<V>, k: string, v: V)
    requires m.Valid()
    ensures k !in m.values ==> Set(m, k, v).Entries() == m.Entries() + [(k, v)]
    ensures k in m.values ==> |Set(m, k, v).Entries()| == |m.Entries()|
    ensures k in m.values ==> forall i :: 0 <= i < |m.Entries()| ==>
      Set(m, k, v).Entries()[i] == (if m.keys[i] == k then (k, v) else m.Entries()[i])
  {
  }

  /** `new Map(pairs)` with no repeated key visits exactly the pairs, in their order. */
  lemma FromDistinctPairsEntries<V>(ps: seq<(string, V)>)
    requires forall i, j :: 0 <= i < j < |ps| ==> ps[i].0 != ps[j].0
    ensures FromPairs(ps).Entries() == ps
  {
    FromDistinctPairs(ps);
  }

  /** Pairs that agree on the value of every key they share. */
  ghost predicate Functional<V>(ps: seq<(string, V)>)
  {
    forall i, j :: 0 <= i < |ps| && 0 <= j < |ps| && ps[i].0 == ps[j].0 ==> ps[i].1 == ps[j].1
  }

  /** Some pair at or after `i` is the last pair with the key of pair `i`. */
  lemma {:induction false} LastPairOfKey<V>(ps: seq<(string, V)>, i: int) returns (j: int)
    requires 0 <= i < |ps|
    ensures i <= j < |ps| && ps[j].0 == ps[i].0 && LastOfItsKey(ps, j)
    decreases |ps| - i
  {
    if LastOfItsKey(ps, i) {
      j := i;
    } else {
      var j' :| i < j' < |ps| && ps[j'].0 == ps[i].0;
      j := LastPairOfKey(ps, j');
    }
  }

  /** When repeated keys carry the same value, every pair is found in the map built from the pairs. */
  lemma FromFunctionalPairs<V>(ps: seq<(string, V)>)
    requires Functional(ps)
    ensures forall i :: 0 <= i < |ps| ==> ps[i].0 in FromPairs(ps).values && FromPairs(ps).values[ps[i].0] == ps[i].1
  {
    forall i | 0 <= i < |ps| ensures ps[i].0 in FromPairs(ps).values && FromPairs(ps).values[ps[i].0] == ps[i].1 {
      var j := LastPairOfKey(ps, i);
      FromPairsLastWins(ps, j);
    }
  }
}

=== FILE: paths.dfy ===
/**
 * The part of Node's `path` module that the revisioning pipeline uses, for
 * POSIX paths written with `/`: `dirname`, `basename`, `extname` and `join`.
 * Paths are split at their last `/`; the normalisation `path.join` performs
 * on `.` and `..` segments and on repeated slashes is not modelled.
 */
module Paths {

  /** Index of the last occurrence of `c` among the first `n` elements of `s`, or -1 when there is none. */
  function LastIndexBelow(s: string, c: char, n: nat): (k: int)
    requires n <= |s|
    ensures -1 <= k < n
    ensures k >= 0 ==> s[k] == c
    ensures forall j :: k < j < n ==> s[j] != c
  {
    if n == 0 then -1
    else if s[n - 1] == c then n - 1
    else LastIndexBelow(s, c, n - 1)
  }

  /** Index of the last occurrence of `c` in `s`, or -1 when there is none. */
  function LastIndexOf(s: string, c: char): (k: int)
    ensures -1 <= k < |s|
    ensures k >= 0 ==> s[k] == c && c !in s[k + 1..]
    ensures k == -1 ==> c !in s
  {
    var k := LastIndexBelow(s, c, |s|);
    var after := s[k + 1..];
    assert forall i :: 0 <= i < |after| ==> after[i] == s[k + 1 + i];
    k
  }

  /** `path.dirname`: everything before the last `/`, or `.` when there is none. */
  function Dirname(f: string): string
  {
    var k := LastIndexOf(f, '/');
    if k < 0 then "." else f[..k]
  }

  /** `path.basename`: everything after the last `/`. */
  function Basename(f: string): (b: string)
    ensures '/' !in b
  {
    f[LastIndexOf(f, '/') + 1..]
  }

  /** `path.join` of a directory and a base name; a directory `.` disappears. */
  function Join(dir: string, base: string): string
  {
    if dir == "." then base else dir + "/" + base
  }

  /**
   * The extension of a base name: from its last `.` to its end, unless that
   * `.` is its first character or the name is `..`.
   */
  function Extension(b: string): (e: string)
    ensures |e| <= |b| && e == b[|b| - |e|..]
    ensures e != [] ==> e[0] == '.' && '.' !in e[1..] && |e| < |b|
    ensures e == [] <==> b == ".." || forall i :: 0 < i < |b| ==> b[i] != '.'
  {
    var d := LastIndexOf(b, '.');
    if d <= 0 || b == ".." then "" else b[d..]
  }

  /** `path.extname`: the extension of the base name. */
  function Extname(f: string): (e: string)
    ensures e == [] || (e[0] == '.' && '.' !in e[1..] && '/' !in e)
    ensures |e| <= |Basename(f)| && e == Basename(f)[|Basename(f)| - |e|..]
    ensures e == [] <==> Basename(f) == ".." || forall i :: 0 < i < |Basename(f)| ==> Basename(f)[i] != '.'
  {
    var b := Basename(f);
    var e := Extension(b);
    assert forall i :: 0 <= i < |e| ==> e[i] == b[|b| - |e| + i];
    e
  }

  /** `path.basename(f, path.extname(f))`: the base name without its extension. */
  function Stem(f: string): string
  {
    var b := Basename(f);
    b[..|b| - |Extension(b)|]
  }

  /** The extension is a suffix of the base name, so stem and extension make it up again. */
  lemma StemAndExtension(f: string)
    ensures |Extname(f)| <= |Basename(f)|
    ensures Stem(f) + Extname(f) == Basename(f)
    ensures Extname(f) != [] ==> Stem(f) != []
  {
    var b := Basename(f);
    assert b[..|b| - |Extension(b)|] + b[|b| - |Extension(b)|..] == b;
  }

  /**
   * A slash-free name other than `..` whose last `.` is not its first
   * character splits at that `.` into stem and extension.
   */
  lemma SplitAtLastDot(b: string)
    requires '/' !in b && b != ".." && LastIndexOf(b, '.') > 0
    ensures Extname(b) == b[LastIndexOf(b, '.')..]
    ensures Stem(b) == b[..LastIndexOf(b, '.')]
  {
    assert LastIndexOf(b, '/') == -1;
    assert Basename(b) == b;
  }

  /** Extension and stem depend on the base name only. */
  lemma ExtnameOfBasename(f: string)
    ensures Extname(Basename(f)) == Extname(f) && Stem(Basename(f)) == Stem(f)
  {
    var b := Basename(f);
    assert LastIndexOf(b, '/') == -1;
    assert Basename(b) == b;
    assert Stem(b) == b[..|b| - |Extension(b)|];
    assert Stem(f) == b[..|b| - |Extension(b)|];
  }

  /**
   * Joining the directory of `f` with a base name (a string without `/`) gives
   * a path in the same directory whose base name is that base name.
   */
  lemma {:induction false} JoinKeepsDirectory(f: string, base: string)
    requires '/' !in base
    ensures Dirname(Join(Dirname(f), base)) == Dirname(f)
    ensures Basename(Join(Dirname(f), base)) == base
  {
    var d := Dirname(f);
    if d == "." {
      assert LastIndexOf(base, '/') == -1;
    } else {
      var j := d + "/" + base;
      assert j[|d|] == '/' && j[|d| + 1..] == base;
      var k := LastIndexOf(j, '/');
      assert k == |d|;
      assert j[..k] == d;
    }
  }

  /**
   * Splitting a path and joining the parts again gives the path back, except
   * that a leading `./` disappears.
   */
  lemma JoinSplit(f: string)
    ensures var j := Join(Dirname(f), Basename(f));
      j == f || ("./" <= f && j == f[2..])
  {
    var k := LastIndexOf(f, '/');
    if k < 0 {
      assert Dirname(f) == "." && Basename(f) == f[0..] == f;
    } else {
      var d, b := f[..k], f[k + 1..];
      assert Dirname(f) == d && Basename(f) == b;
      if d == "." {
        assert k == 1 && f[..2] == "./";
        assert Join(d, b) == f[2..];
      } else {
        SplitAround(f, k);
        assert Join(d, b) == d + "/" + b;
      }
    }
  }

  lemma SplitAround(f: string, k: int)
    requires 0 <= k < |f| && f[k] == '/'
    ensures f[..k] + "/" + f[k + 1..] == f
  {
    assert f == f[..k] + [f[k]] + f[k + 1..];
  }

  /** The last `c` of `s + t` is the last `c` of `t` when `t` has one. */
  lemma LastIndexOfAppend(s: string, t: string, c: char)
    requires c in t
    ensures LastIndexOf(s + t, c) == |s| + LastIndexOf(t, c)
  {
    var kt := LastIndexOf(t, c);
    assert (s + t)[|s| + kt] == c;
    assert (s + t)[|s| + kt + 1..] == t[kt + 1..];
    LastIndexOfUnique(s + t, c, |s| + kt);
  }

  /** The one position holding `c` with no `c` after it is the last index of `c`. */
  lemma LastIndexOfUnique(s: string, c: char, k: int)
    requires 0 <= k < |s| && s[k] == c && c !in s[k + 1..]
    ensures LastIndexOf(s, c) == k
  {
    var r := LastIndexOf(s, c);
    forall j | k < j < |s| ensures s[j] != c {
      assert s[j] == s[k + 1..][j - k - 1];
    }
    forall j | r < j < |s| ensures s[j] != c {
      assert s[j] == s[r + 1..][j - r - 1];
    }
  }
}

=== FILE: revision.dfy ===
/**
 * The revisioning pass: `transformFilename`, `replace` and the sequential loop
 * of the exported `rev`, which rewrites each file's references to the files it
 * depends on, hashes the result, renames the file after the hash and records
 * the new name for the files processed after it.
 */
module Revision {
  import opened Wrappers
  import opened Strings
  import opened Paths
  import opened OrderedMaps
  import opened Graph
  import opened Deps

  type byte = x: int | 0 <= x < 256

  /** The SHA-256 digest of a string, taken as a black box. */
  type Digest = string -> seq<byte>

  /** A lower-case hexadecimal digit. */
  predicate IsHexDigit(c: char)
  {
    '0' <= c <= '9' || 'a' <= c <= 'f'
  }

  /** The digit for a value below 16. */
  function HexDigit(v: int): (c: char)
    requires 0 <= v < 16
    ensures IsHexDigit(c)
  {
    if v < 10 then ('0' as int + v) as char else ('a' as int + v - 10) as char
  }

  /** The value of a lower-case hexadecimal digit. */
  function HexValue(c: char): (v: int)
    requires IsHexDigit(c)
    ensures 0 <= v < 16 && HexDigit(v) == c
  {
    if '0' <= c <= '9' then c as int - '0' as int else c as int - 'a' as int + 10
  }

  /** `digest('hex')`: two lower-case hexadecimal digits per byte, high digit first. */
  function Hex(bytes: seq<byte>): (h: string)
    ensures |h| == 2 * |bytes|
    ensures forall i :: 0 <= i < |h| ==> IsHexDigit(h[i])
  {
    if bytes == [] then []
    else [HexDigit(bytes[0] / 16), HexDigit(bytes[0] % 16)] + Hex(bytes[1..])
  }

  /** Reads the bytes back from their hexadecimal spelling. */
  function Unhex(h: string): (bytes: seq<byte>)
    requires |h| % 2 == 0 && forall i :: 0 <= i < |h| ==> IsHexDigit(h[i])
  {
    if h == [] then []
    else [16 * HexValue(h[0]) + HexValue(h[1])] + Unhex(h[2..])
  }

  /** One byte survives being spelt as two digits and read back. */
  lemma ByteRoundTrip(b: byte)
    ensures 16 * HexValue(HexDigit(b / 16)) + HexValue(HexDigit(b % 16)) == b
  {
  }

  /** The hexadecimal spelling loses nothing. */
  lemma {:induction false} HexRoundTrip(bytes: seq<byte>)
    ensures Unhex(Hex(bytes)) == bytes
  {
    if bytes != [] {
      var h := Hex(bytes);
      assert h[2..] == Hex(bytes[1..]);
      HexRoundTrip(bytes[1..]);
      ByteRoundTrip(bytes[0]);
    }
  }

  function Min(a: int, b: int): int
  {
    if a <= b then a else b
  }

  /** `transformFilename(name, hash)`: `<stem>.<first 8 characters of hash><ext>`. */
  function TransformFilename(name: string, hash: string): string
  {
    Stem(name) + "." + hash[..Min(8, |hash|)] + Extname(name)
  }

  /**
   * The new base name starts with the old stem and a dot, ends with the old
   * extension, and is longer than the old base name by the dot and the hash
   * fragment.
   */
  lemma TransformFilenameShape(name: string, hash: string)
    ensures var r := TransformFilename(name, hash);
      && Stem(name) + "." <= r
      && |Extname(name)| <= |r| && r[|r| - |Extname(name)|..] == Extname(name)
      && r[|Stem(name)| + 1..|r| - |Extname(name)|] == hash[..Min(8, |hash|)]
      && |r| == |Basename(name)| + 1 + Min(8, |hash|)
  {
    StemAndExtension(name);
  }

  /**
   * A slash-free name longer than `..` that ends with a dot-led, dot-free
   * extension after a non-empty head has that extension.
   */
  lemma ExtensionAfterHead(head: string, ext: string)
    requires head != [] && |head| + |ext| > 2 && '/' !in head && '/' !in ext
    requires ext != [] && ext[0] == '.' && '.' !in ext[1..]
    ensures Extname(head + ext) == ext && Stem(head + ext) == head
  {
    var r := head + ext;
    assert LastIndexOf(ext, '.') == 0;
    LastIndexOfAppend(head, ext, '.');
    assert r != "..";
    SplitAtLastDot(r);
    assert r[|head|..] == ext && r[..|head|] == head;
  }

  /**
   * When the base name has an extension and the hash fragment holds neither
   * `.` nor `/`, the new name has the same extension, and its stem is the old
   * stem followed by the fragment.
   */
  lemma TransformFilenameKeepsExtension(name: string, hash: string)
    requires '/' !in name && Extname(name) != []
    requires var frag := hash[..Min(8, |hash|)]; '.' !in frag && '/' !in frag
    ensures var r := TransformFilename(name, hash);
      && Extname(r) == Extname(name)
      && Stem(r) == Stem(name) + "." + hash[..Min(8, |hash|)]
  {
    var frag := hash[..Min(8, |hash|)];
    assert LastIndexOf(name, '/') == -1;
    StemAndExtension(name);
    ExtensionAfterHead(Stem(name) + "." + frag, Extname(name));
  }

  /**
   * A non-empty name without an extension gains the hash fragment as its
   * extension, provided the fragment is non-empty and holds neither `.` nor
   * `/`; its stem is then the whole old name.
   */
  lemma TransformFilenameGainsExtension(name: string, hash: string)
    requires '/' !in name && name != [] && Extname(name) == []
    requires var frag := hash[..Min(8, |hash|)]; frag != [] && '.' !in frag && '/' !in frag
    ensures var r := TransformFilename(name, hash);
      && Extname(r) == "." + hash[..Min(8, |hash|)]
      && Stem(r) == name
  {
    var frag := hash[..Min(8, |hash|)];
    assert Basename(name) == name by {
      assert LastIndexOf(name, '/') == -1;
    }
    StemAndExtension(name);
    var ext := "." + frag;
    assert ext[1..] == frag;
    assert TransformFilename(name, hash) == name + ext;
    ExtensionAfterHead(name, ext);
  }

  /** Hexadecimal digests contain neither `.` nor `/`. */
  lemma HexHasNoSeparators(h: string, n: nat)
    requires forall i :: 0 <= i < |h| ==> IsHexDigit(h[i])
    ensures '.' !in h[..Min(n, |h|)] && '/' !in h[..Min(n, |h|)]
  {
  }

  /** The skip-rename lists matched against the file's path; everything else is renamed after its hash. */
  function NewFilename(glob: Glob, skipRename: seq<string>, filename: string, content: string, digest: Digest): string
  {
    if MatchesPatterns(glob, skipRename, filename) then filename
    else Join(Dirname(filename), TransformFilename(Basename(filename), Hex(digest(content))))
  }

  /**
   * A skip-rename match keeps its name. Any other file stays in its directory,
   * keeps its extension, gets a new base name that embeds the hash, and so
   * never keeps its old name.
   */
  lemma NewFilenameProperties(glob: Glob, skipRename: seq<string>, filename: string, content: string, digest: Digest)
    ensures var r := NewFilename(glob, skipRename, filename, content, digest);
      && (MatchesPatterns(glob, skipRename, filename) ==> r == filename)
      && (!MatchesPatterns(glob, skipRename, filename) ==>
            && Dirname(r) == Dirname(filename)
            && Basename(r) == TransformFilename(Basename(filename), Hex(digest(content)))
            && (Extname(filename) != [] ==> Extname(r) == Extname(filename))
            && r != filename)
  {
    if !MatchesPatterns(glob, skipRename, filename) {
      RenamedProperties(filename, Hex(digest(content)));
    }
  }

  /** Renaming a file after a hexadecimal hash keeps its directory and extension and changes its name. */
  lemma RenamedProperties(f: string, h: string)
    requires forall i :: 0 <= i < |h| ==> IsHexDigit(h[i])
    ensures var r := Join(Dirname(f), TransformFilename(Basename(f), h));
      && Dirname(r) == Dirname(f)
      && Basename(r) == TransformFilename(Basename(f), h)
      && (Extname(f) != [] ==> Extname(r) == Extname(f))
      && r != f
  {
    var b := Basename(f);
    var t := TransformFilename(b, h);
    HexHasNoSeparators(h, 8);
    TransformedIsSlashFree(b, h);
    JoinKeepsDirectory(f, t);
    var r := Join(Dirname(f), t);
    ExtnameOfBasename(f);
    ExtnameOfBasename(r);
    if Extname(f) != [] {
      TransformFilenameKeepsExtension(b, h);
    }
    TransformFilenameShape(b, h);
    assert Basename(r) != Basename(f);
  }

  /**
   * A renamed file without an extension, whose base name and digest are not
   * empty, gains the first hash characters as its extension.
   */
  lemma NewFilenameGainsExtension(glob: Glob, skipRename: seq<string>, filename: string, content: string, digest: Digest)
    requires !MatchesPatterns(glob, skipRename, filename)
    requires Extname(filename) == [] && Basename(filename) != [] && digest(content) != []
    ensures var h := Hex(digest(content));
      Extname(NewFilename(glob, skipRename, filename, content, digest)) == "." + h[..Min(8, |h|)]
  {
    var h := Hex(digest(content));
    var b := Basename(filename);
    var t := TransformFilename(b, h);
    HexHasNoSeparators(h, 8);
    TransformedIsSlashFree(b, h);
    JoinKeepsDirectory(filename, t);
    ExtnameOfBasename(filename);
    TransformFilenameGainsExtension(b, h);
    ExtnameOfBasename(Join(Dirname(filename), t));
  }

  /** A slash-free base name stays slash-free when renamed after a hexadecimal hash. */
  lemma TransformedIsSlashFree(b: string, h: string)
    requires '/' !in b
    requires forall i :: 0 <= i < |h| ==> IsHexDigit(h[i])
    ensures '/' !in TransformFilename(b, h)
  {
    assert LastIndexOf(b, '/') == -1;
    StemAndExtension(b);
    HexHasNoSeparators(h, 8);
    assert Stem(b) <= b;
  }

  /** The replacement pairs `deps.map(dep => [dep, refs.get(dep)])`; a missing entry is the string "undefined". */
  function ReplacementPairs(deps: seq<string>, refs: map<string, string>): (ps: seq<(string, string)>)
    ensures |ps| == |deps|
  {
    seq(|deps|, i requires 0 <= i < |deps| => (deps[i], if deps[i] in refs then refs[deps[i]] else "undefined"))
  }

  /** `new Map(deps.map(dep => [dep, refs.get(dep)]))` */
  function Replacements(deps: seq<string>, refs: map<string, string>): (m: OrderedMap<string>)
    ensures m.Valid()
  {
    FromPairs(ReplacementPairs(deps, refs))
  }

  /**
   * The replacement map has exactly the dependencies as keys; a dependency
   * maps to its recorded new name, or to `"undefined"` when none is recorded.
   */
  lemma ReplacementsLookup(deps: seq<string>, refs: map<string, string>)
    ensures var m := Replacements(deps, refs);
      && m.values.Keys == (set d | d in deps)
      && forall d :: d in deps ==> m.values[d] == (if d in refs then refs[d] else "undefined")
  {
    var ps := ReplacementPairs(deps, refs);
    FromPairsKeys(ps);
    assert FirstComponents(ps) == deps;
    FromFunctionalPairs(ps);
    forall d | d in deps
      ensures FromPairs(ps).values[d] == (if d in refs then refs[d] else "undefined")
    {
      var i :| 0 <= i < |deps| && deps[i] == d;
      assert ps[i].0 == d;
    }
  }

  /** Each replacement applied in turn to the output of the previous one. */
  function ApplyReplacements(content: string, entries: seq<(string, string)>): string
    decreases |entries|
  {
    if entries == [] then content
    else ApplyReplacements(ReplaceAll(content, entries[0].0, entries[0].1), entries[1..])
  }

  /** The content `replace` writes for a file with the given dependencies. */
  function Rewritten(content: string, deps: seq<string>, refs: map<string, string>): string
  {
    ApplyReplacements(content, Replacements(deps, refs).Entries())
  }

  /** A file without dependencies is written unchanged. */
  lemma NoDependenciesNoRewrite(content: string, refs: map<string, string>)
    ensures Rewritten(content, [], refs) == content
  {
    assert ReplacementPairs([], refs) == [];
  }

  /** `refs2` has every entry of `refs1`, with the same value. */
  ghost predicate Extends(refs2: map<string, string>, refs1: map<string, string>)
  {
    forall k :: k in refs1 ==> k in refs2 && refs2[k] == refs1[k]
  }

  /**
   * Once every dependency of a file has its new name, entries added later for
   * other files do not change what is written for it.
   */
  lemma RewrittenStable(content: string, deps: seq<string>, refs1: map<string, string>, refs2: map<string, string>)
    requires forall d :: d in deps ==> d in refs1
    requires Extends(refs2, refs1)
    ensures Rewritten(content, deps, refs2) == Rewritten(content, deps, refs1)
  {
    assert ReplacementPairs(deps, refs1) == ReplacementPairs(deps, refs2);
  }

  /**
   * `replace`: reads the file, applies the replacements in map order when
   * there are any, hashes the result and picks the new name; the new name and
   * the content to write there are the result.
   */
  method Replace(fs: FileSystem, filename: string, replacements: OrderedMap<string>,
                 skipRename: seq<string>, glob: Glob, digest: Digest)
    returns (r: Result<(string, string), RevError>)
    requires replacements.Valid()
    ensures r.Err? <==> filename !in fs
    ensures r.Err? ==> r.error == ReadFailure(filename)
    ensures r.Ok? ==> r.value.1 == ApplyReplacements(fs[filename], replacements.Entries())
    ensures r.Ok? && replacements.Size() == 0 ==> r.value.1 == fs[filename]
    ensures r.Ok? ==> r.value.0 == NewFilename(glob, skipRename, filename, r.value.1, digest)
  {
    if filename !in fs {
      return Err(ReadFailure(filename));
    }
    var content := fs[filename];
    if replacements.Size() > 0 {
      var entries := replacements.Entries();
      for i := 0 to |entries|
        invariant ApplyReplacements(content, entries[i..]) == ApplyReplacements(fs[filename], entries)
      {
        assert entries[i..][1..] == entries[i + 1..];
        content := ReplaceAll(content, entries[i].0, entries[i].1);
      }
      assert entries[|entries|..] == [];
    }
    return Ok((NewFilename(glob, skipRename, filename, content, digest), content));
  }

  // ---- rev ----

  datatype Options = Options(skipRename: Option<seq<string>>, skipFindDeps: Option<seq<string>>)

  const DefaultSkipRename: seq<string> := ["index.html"]
  const DefaultSkipFindDeps: seq<string> := ["*.png", "*.jpg", "*.jpeg", "*.gif"]

  /** `options.skipRename || ['index.html']` */
  function SkipRename(options: Options): (patterns: seq<string>)
    ensures options.skipRename.Some? ==> patterns == options.skipRename.value
    ensures options.skipRename.None? ==> patterns == ["index.html"]
  {
    match options.skipRename
    case Some(p) => p
    case None => DefaultSkipRename
  }

  /** `options.skipFindDeps || ['*.png', '*.jpg', '*.jpeg', '*.gif']` */
  function SkipFindDeps(options: Options): (patterns: seq<string>)
    ensures options.skipFindDeps.Some? ==> patterns == options.skipFindDeps.value
    ensures options.skipFindDeps.None? ==> patterns == ["*.png", "*.jpg", "*.jpeg", "*.gif"]
  {
    match options.skipFindDeps
    case Some(p) => p
    case None => DefaultSkipFindDeps
  }

  /**
   * What a run produced: the processing order, the new name of each processed
   * file in that order (what `rev` resolves to), the table of new names
   * (`refs`) and the files written to the output directory.
   */
  datatype Revised = Revised(order: seq<string>, names: seq<string>, refs: map<string, string>, output: map<string, string>)

  /**
   * Every recorded file is a key of `m` that could be read, all its
   * dependencies are recorded, and its new name is the one `replace` derives
   * from its rewritten content.
   */
  ghost predicate RefsConsistent(m: DepsMap, fs: FileSystem, refs: map<string, string>,
                                 skipRename: seq<string>, glob: Glob, digest: Digest)
  {
    forall g :: g in refs ==>
      && g in m.values && g in fs
      && (forall d :: d in m.values[g] ==> d in refs)
      && refs[g] == NewFilename(glob, skipRename, g, Rewritten(fs[g], m.values[g], refs), digest)
  }

  /** The file written as `n` holds the rewritten content of a file renamed to `n`. */
  ghost predicate WrittenFor(m: DepsMap, fs: FileSystem, refs: map<string, string>, output: map<string, string>, n: string)
    requires n in output
  {
    exists g :: g in refs && g in m.values && g in fs && refs[g] == n && output[n] == Rewritten(fs[g], m.values[g], refs)
  }

  /** Every written file holds the rewritten content of a file renamed to it, and every new name was written. */
  ghost predicate OutputConsistent(m: DepsMap, fs: FileSystem, refs: map<string, string>, output: map<string, string>)
  {
    && (forall g :: g in refs ==> refs[g] in output)
    && (forall n :: n in output ==> WrittenFor(m, fs, refs, output, n))
  }

  /** Recording a file whose dependencies all have new names keeps every earlier entry and the table consistent. */
  lemma RecordRefs(m: DepsMap, fs: FileSystem, refs: map<string, string>,
                   skipRename: seq<string>, glob: Glob, digest: Digest, f: string, n: string)
    requires RefsConsistent(m, fs, refs, skipRename, glob, digest)
    requires f in m.values && f in fs && forall d :: d in m.values[f] ==> d in refs
    requires n == NewFilename(glob, skipRename, f, Rewritten(fs[f], m.values[f], refs), digest)
    ensures Extends(refs[f := n], refs)
    ensures RefsConsistent(m, fs, refs[f := n], skipRename, glob, digest)
  {
    var refs' := refs[f := n];
    assert Extends(refs', refs);
    forall g | g in refs'
      ensures g in m.values && g in fs && (forall d :: d in m.values[g] ==> d in refs')
      ensures refs'[g] == NewFilename(glob, skipRename, g, Rewritten(fs[g], m.values[g], refs'), digest)
    {
      var deps := m.values[g];
      if g == f {
        RewrittenStable(fs[g], deps, refs, refs');
      } else {
        assert g in refs && refs'[g] == refs[g];
        RewrittenStable(fs[g], deps, refs, refs');
        assert refs[g] == NewFilename(glob, skipRename, g, Rewritten(fs[g], deps, refs), digest);
      }
    }
  }

  /** Writing the recorded file's content under its new name keeps the output consistent. */
  lemma RecordOutput(m: DepsMap, fs: FileSystem, refs: map<string, string>, output: map<string, string>,
                     f: string, content: string, n: string)
    requires OutputConsistent(m, fs, refs, output)
    requires f in m.values && f in fs && forall d :: d in m.values[f] ==> d in refs
    requires content == Rewritten(fs[f], m.values[f], refs)
    requires Extends(refs[f := n], refs)
    requires forall g :: g in refs ==> g in m.values && g in fs && forall d :: d in m.values[g] ==> d in refs
    ensures OutputConsistent(m, fs, refs[f := n], output[n := content])
  {
    var refs', output' := refs[f := n], output[n := content];
    forall x | x in output' ensures WrittenFor(m, fs, refs', output', x) {
      if x == n {
        RewrittenStable(fs[f], m.values[f], refs, refs');
        assert refs'[f] == x;
      } else {
        assert WrittenFor(m, fs, refs, output, x);
        var g :| g in refs && g in m.values && g in fs && refs[g] == x && output[x] == Rewritten(fs[g], m.values[g], refs);
        RewrittenStable(fs[g], m.values[g], refs, refs');
        assert refs'[g] == x;
      }
    }
  }

  /** The dependency map of a run, when every scanned file could be read. */
  function DepsMapOf(fs: FileSystem, listing: seq<string>, options: Options, glob: Glob): Result<DepsMap, RevError>
  {
    BuildDepsMap(glob, fs, listing, SkipFindDeps(options))
  }

  /** A run succeeds when every listed file can be read and there is no dependency cycle, a file naming itself included. */
  ghost predicate Succeeds(fs: FileSystem, listing: seq<string>, options: Options, glob: Glob)
  {
    var built := DepsMapOf(fs, listing, options, glob);
    && (forall f :: f in listing ==> f in fs)
    && built.Ok?
    && Acyclic(DependencyEdges(built.value))
  }

  /** When a file's turn comes, every file it depends on already has its new name. */
  lemma DependenciesRecorded(m: DepsMap, order: seq<string>, i: int, refs: map<string, string>)
    requires m.Valid() && 0 <= i < |order| && order[i] in m.values
    requires DepsFirst(DependencyEdges(m), order)
    requires refs.Keys == set x | x in order[..i]
    ensures forall d :: d in m.values[order[i]] ==> d in refs
  {
    var es := DependencyEdges(m);
    forall d | d in m.values[order[i]] ensures d in refs {
      assert (order[i], d) in es;
      var k :| 0 <= k < |es| && es[k] == (order[i], d);
      assert d in order[..i];
    }
  }

  /**
   * The state of the loop of `rev` after the first `i` files of the order:
   * exactly those files are recorded, consistently, and `names` lists their
   * new names in order.
   */
  ghost predicate Processed(m: DepsMap, fs: FileSystem, order: seq<string>, i: int,
                            skipRename: seq<string>, glob: Glob, digest: Digest,
                            refs: map<string, string>, output: map<string, string>, names: seq<string>)
    requires 0 <= i <= |order|
  {
    && RefsConsistent(m, fs, refs, skipRename, glob, digest)
    && OutputConsistent(m, fs, refs, output)
    && refs.Keys == (set x | x in order[..i])
    && |names| == i
    && (forall j :: 0 <= j < i ==> order[j] in refs && names[j] == refs[order[j]])
  }

  /** Processing the next file of the order, as `replace` does it, extends the state by one file. */
  lemma ProcessedStep(m: DepsMap, fs: FileSystem, order: seq<string>, i: int,
                      skipRename: seq<string>, glob: Glob, digest: Digest,
                      refs: map<string, string>, output: map<string, string>, names: seq<string>,
                      n: string, content: string)
    requires m.Valid() && 0 <= i < |order| && order[i] in m.values && order[i] in fs
    requires DepsFirst(DependencyEdges(m), order)
    requires Processed(m, fs, order, i, skipRename, glob, digest, refs, output, names)
    requires content == Rewritten(fs[order[i]], m.values[order[i]], refs)
    requires n == NewFilename(glob, skipRename, order[i], content, digest)
    ensures Processed(m, fs, order, i + 1, skipRename, glob, digest,
                      refs[order[i] := n], output[n := content], names + [n])
  {
    var f := order[i];
    DependenciesRecorded(m, order, i, refs);
    RecordRefs(m, fs, refs, skipRename, glob, digest, f, n);
    RecordOutput(m, fs, refs, output, f, content, n);
    RecordedPrefix(order, i, i + 1, refs, n);
    NamesInStep(order, names, refs, refs[f := n], n);
  }

  /** Recording the next file of the order extends the recorded prefix by one. */
  lemma RecordedPrefix(order: seq<string>, i: int, next: int, refs: map<string, string>, n: string)
    requires 0 <= i < |order| && next == i + 1
    requires refs.Keys == set x | x in order[..i]
    ensures refs[order[i] := n].Keys == set x | x in order[..next]
  {
    assert order[..next] == order[..i] + [order[i]];
  }

  /** Appending the new name of the next file keeps `names` in step with the order. */
  lemma NamesInStep(order: seq<string>, names: seq<string>, refs: map<string, string>,
                    refs': map<string, string>, n: string)
    requires |names| < |order|
    requires forall j :: 0 <= j < |names| ==> order[j] in refs && names[j] == refs[order[j]]
    requires Extends(refs', refs) && order[|names|] in refs' && refs'[order[|names|]] == n
    ensures forall j :: 0 <= j <= |names| ==> order[j] in refs' && (names + [n])[j] == refs'[order[j]]
  {
  }

  /** When the loop stops at a file, every file before it was read. */
  lemma FirstUnreadable(m: DepsMap, fs: FileSystem, order: seq<string>, i: int,
                        skipRename: seq<string>, glob: Glob, digest: Digest,
                        refs: map<string, string>, output: map<string, string>, names: seq<string>)
    requires 0 <= i < |order|
    requires Processed(m, fs, order, i, skipRename, glob, digest, refs, output, names)
    ensures forall j :: 0 <= j < i ==> order[j] in fs
  {
    forall j | 0 <= j < i ensures order[j] in fs {
      assert order[j] in order[..i];
    }
  }

  /**
   * The sequential loop of `rev`: each file of the order in turn goes through
   * `replace` with the new names recorded so far, and its new name is
   * recorded before the next file starts.
   */
  method ProcessInOrder(m: DepsMap, fs: FileSystem, order: seq<string>,
                        skipRename: seq<string>, glob: Glob, digest: Digest)
    returns (r: Result<Revised, RevError>)
    requires m.Valid()
    requires forall x :: x in order ==> x in m.values
    requires DepsFirst(DependencyEdges(m), order)
    ensures r.Ok? <==> forall x :: x in order ==> x in fs
    ensures r.Err? ==> r.error.ReadFailure? && r.error.path in order && r.error.path !in fs
    ensures r.Err? ==>
              exists i :: 0 <= i < |order| && order[i] == r.error.path && forall j :: 0 <= j < i ==> order[j] in fs
    ensures r.Ok? ==>
              && r.value.order == order
              && r.value.refs.Keys == (set x | x in order)
              && Processed(m, fs, order, |order|, skipRename, glob, digest, r.value.refs, r.value.output, r.value.names)
  {
    var refs: map<string, string> := map[];
    var output: map<string, string> := map[];
    var names: seq<string> := [];
    for i := 0 to |order|
      invariant Processed(m, fs, order, i, skipRename, glob, digest, refs, output, names)
    {
      var filename := order[i];
      DependenciesRecorded(m, order, i, refs);
      var replaced := Replace(fs, filename, Replacements(m.values[filename], refs), skipRename, glob, digest);
      if replaced.Err? {
        FirstUnreadable(m, fs, order, i, skipRename, glob, digest, refs, output, names);
        return Err(replaced.error);
      }
      var (newFilename, content) := replaced.value;
      ProcessedStep(m, fs, order, i, skipRename, glob, digest, refs, output, names, newFilename, content);
      refs := refs[filename := newFilename];
      output := output[newFilename := content];
      names := names + [newFilename];
    }
    assert order[..|order|] == order;
    forall x | x in order ensures x in fs {
      assert x in refs;
    }
    return Ok(Revised(order, names, refs, output));
  }

  /** A processing order of the scanned map visits exactly the listed files. */
  lemma OrderCoversListing(fs: FileSystem, listing: seq<string>, options: Options, glob: Glob, order: seq<string>)
    requires DepsMapOf(fs, listing, options, glob).Ok?
    requires IsProcessingOrder(DepsMapOf(fs, listing, options, glob).value, order)
    requires var m := DepsMapOf(fs, listing, options, glob).value;
      forall x :: x in order ==> x in m.values || exists k :: k in m.values && x in m.values[k]
    ensures forall x :: x in order ==> x in DepsMapOf(fs, listing, options, glob).value.values
    ensures forall x :: x in order <==> x in listing
    ensures (set x | x in order) == (set f | f in listing)
  {
    var m := DepsMapOf(fs, listing, options, glob).value;
    DependenciesAreListed(glob, fs, listing, SkipFindDeps(options));
    assert m.values.Keys == set f | f in listing;
    forall x | x in listing ensures x in order {
      assert x in m.values;
    }
  }

  /**
   * `rev`: scans the listed files, orders them, then processes them one after
   * another, rewriting references to already processed files, renaming each
   * file after the hash of its rewritten content and recording the new name.
   */
  method Rev(fs: FileSystem, listing: seq<string>, options: Options, glob: Glob, digest: Digest)
    returns (r: Result<Revised, RevError>)
    ensures r.Ok? <==> Succeeds(fs, listing, options, glob)
    ensures r.Err? && r.error.ReadFailure? ==> r.error.path in listing && r.error.path !in fs
    ensures DepsMapOf(fs, listing, options, glob).Err? ==> r == Err(DepsMapOf(fs, listing, options, glob).error)
    ensures r.Err? && r.error.ReadFailure? && DepsMapOf(fs, listing, options, glob).Ok? ==>
              Acyclic(DependencyEdges(DepsMapOf(fs, listing, options, glob).value))
    ensures r.Err? && r.error.CyclicDependency? ==>
              var built := DepsMapOf(fs, listing, options, glob);
              built.Ok? && OnCycle(DependencyEdges(built.value), r.error.node)
    ensures r.Ok? ==>
              var m := DepsMapOf(fs, listing, options, glob).value;
              && IsProcessingOrder(m, r.value.order)
              && Standalone(m) <= r.value.order
              && (forall x :: x in r.value.order[|Standalone(m)|..] <==> IsNode(DependencyEdges(m), x))
              && Distinct(r.value.order[|Standalone(m)|..])
              && r.value.refs.Keys == (set f | f in listing)
              && Processed(m, fs, r.value.order, |r.value.order|, SkipRename(options), glob, digest,
                           r.value.refs, r.value.output, r.value.names)
  {
    var built := BuildDepsMap(glob, fs, listing, SkipFindDeps(options));
    if built.Err? {
      return Err(built.error);
    }
    var allDeps := built.value;
    var sorted := Toposort(allDeps);
    if sorted.Err? {
      return Err(sorted.error);
    }
    var order := sorted.value;
    OrderCoversListing(fs, listing, options, glob, order);
    r := ProcessInOrder(allDeps, fs, order, SkipRename(options), glob, digest);
  }
}

=== FILE: strings.dfy ===
/**
 * Literal substring search (`Buffer.prototype.includes`, here over characters
 * rather than the bytes of their UTF-8 encoding) and literal global
 * replacement (`String.prototype.replace` with a global pattern whose
 * characters are all taken literally).
 */
module Strings {

  /** No string occurs twice in `s`. */
  predicate Distinct(s: seq<string>)
  {
    forall i, j :: 0 <= i < j < |s| ==> s[i] != s[j]
  }

  /** There is a position of `s` at which `p` occurs. */
  ghost predicate OccursAt(s: string, p: string, i: int)
  {
    0 <= i && i + |p| <= |s| && s[i..i + |p|] == p
  }

  /** `content.includes(p)` on the file's contents: scans `s` from the left, comparing prefixes. */
  predicate Contains(s: string, p: string)
    decreases |s|
  {
    p <= s || (|s| > 0 && Contains(s[1..], p))
  }

  /** An occurrence at position `i` is found by the left-to-right scan. */
  lemma {:induction false} OccurrenceFound(s: string, p: string, i: int)
    requires OccursAt(s, p, i)
    ensures Contains(s, p)
    decreases i
  {
    if i == 0 {
      assert s[..|p|] == p;
    } else {
      assert s[1..][i - 1..i - 1 + |p|] == s[i..i + |p|];
      OccurrenceFound(s[1..], p, i - 1);
    }
  }

  /** `Contains` holds exactly when `p` occurs at some position of `s`. */
  lemma {:induction false} ContainsIff(s: string, p: string)
    ensures Contains(s, p) <==> exists i :: OccursAt(s, p, i)
    decreases |s|
  {
    if exists i :: OccursAt(s, p, i) {
      var i :| OccursAt(s, p, i);
      OccurrenceFound(s, p, i);
    }
    if Contains(s, p) {
      if p <= s {
        assert OccursAt(s, p, 0);
      } else {
        ContainsIff(s[1..], p);
        var i :| OccursAt(s[1..], p, i);
        assert s[1..][i..i + |p|] == s[i + 1..i + 1 + |p|];
        assert OccursAt(s, p, i + 1);
      }
    }
  }

  /**
   * Replaces every occurrence of `p` in `s` by `r`, scanning left to right and
   * resuming after each replaced occurrence, as a global regular expression
   * without metacharacters does. An empty `p` matches before every character
   * and at the end, as the empty regular expression does.
   */
  function ReplaceAll(s: string, p: string, r: string): string
    decreases |s|
  {
    if |p| == 0 then
      if s == [] then r else r + [s[0]] + ReplaceAll(s[1..], p, r)
    else if p <= s then
      r + ReplaceAll(s[|p|..], p, r)
    else if s == [] then
      []
    else
      [s[0]] + ReplaceAll(s[1..], p, r)
  }

  /** Replacing a string that does not occur leaves the text unchanged. */
  lemma {:induction false} ReplaceAbsent(s: string, p: string, r: string)
    requires !Contains(s, p)
    ensures ReplaceAll(s, p, r) == s
    decreases |s|
  {
    if s != [] {
      ReplaceAbsent(s[1..], p, r);
    }
  }

  /** Replacing a string by itself leaves the text unchanged. */
  lemma {:induction false} ReplaceByItself(s: string, p: string)
    requires p != []
    ensures ReplaceAll(s, p, p) == s
    decreases |s|
  {
    if p <= s {
      ReplaceByItself(s[|p|..], p);
      assert s == p + s[|p|..];
    } else if s != [] {
      ReplaceByItself(s[1..], p);
      assert s == [s[0]] + s[1..];
    }
  }
}

=== FILE: wrappers.dfy ===
/** Option and Result values used for the failure paths of the pipeline. */
module Wrappers {

  datatype Option<+T> = None | Some(value: T)

  datatype Result<+T, +E> = Ok(value: T) | Err(error: E)
}
